=== FILE: README.md ===
# Fixed-window rate limiter

A Dafny model of the request rate limiter of a FastAPI service template: the
`RedisRateLimitingMiddleware` in
`src/core/middleware/rate_limiting/redis_rate_limiter.py`. The model follows
the middleware from construction to dispatch:

- Its constructor turns the configured list of path overrides into a map keyed by exact path.
- For each request, `dispatch` resolves the rule in force: the override for the exact path, else the defaults.
- It derives the counter key `"rate_limit:" + path + ":" + client`, where the client is `"unknown"` when the request carries no address.
- It issues INCR on that key in the counting store and issues EXPIRE only when INCR returned 1.
- It raises HTTP 429 "Rate limit exceeded" when the new count exceeds the limit. Otherwise it passes the request to the next handler.

The counting store (a Redis server in the service) is an immutable map from key to
`Entry(count, expiry)` driven by an abstract integer clock in seconds. A key
is live while the clock is before its deadline. An absent or expired key
reads as 0. INCR keeps a live key's deadline and creates a missing key
without one. EXPIRE with a non-positive timeout deletes the key, as the
store does.

Modules, in dependency order:

| file | module | contents |
|---|---|---|
| wrappers.dfy | `Wrappers` | `Option` |
| store.dfy | `CounterStore` | entries, liveness, INCR, EXPIRE |
| config.dfy | `RateLimitConfig` | overrides, the constructor's override map, rule resolution |
| limiter.dfy | `RateLimiter` | client identity, counter keys and their inverse, the per-request step `Admission`, `Dispatch` |
| windows.dfy | `Windows` | runs over sequences of requests: per-window admission count, counter independence, no renewal, fresh windows |
| fixed_window.dfy | `FixedWindow` | an abstract fixed-window counter and proof that the limiter refines it, under any interleaving |
| scenarios.dfy | `Scenarios` | two concrete configurations worked through with the general lemmas |

The code itself validates nothing and handles no store failure:

- No rule is validated. A limit of 0 or less rejects every request.
- A window of 0 or less makes the first request's EXPIRE delete the counter.
- A store failure is not turned into fail-open or fail-closed behaviour. No such handling exists.
- Rejection is the raised exception, not a rendered response.

## Model

| member | source | states |
|---|---|---|
| RateLimitConfig.Overrides | src/core/middleware/rate_limiting/redis_rate_limiter.py:25-27 | the override map holds exactly the configured paths, and each path maps to the last override in the list that names it |
| RateLimitConfig.LastIndexFor | src/core/middleware/rate_limiting/redis_rate_limiter.py:25-27 | the last position of an override for a path: that override names the path and no later one does; none exists exactly when no override names it |
| RateLimitConfig.OverridesCoverConfiguredPaths | src/core/middleware/rate_limiting/redis_rate_limiter.py:25-27 | the map's keys are the set of configured paths, and each key maps to an override for that same path |
| RateLimitConfig.RuleResolution | src/core/middleware/rate_limiting/redis_rate_limiter.py:39-46 | a path named by no override gets the default limit and window; a named path gets the limit and window of the last override naming it, and nothing from the defaults |
| RateLimitConfig.NewLimiter | src/core/middleware/rate_limiting/redis_rate_limiter.py:25-27 | definition of the constructor's state; the override map it builds is specified by RateLimitConfig.Overrides and RateLimitConfig.RuleResolution |
| RateLimitConfig.EffectiveRule | src/core/middleware/rate_limiting/redis_rate_limiter.py:39-46 | definition of rule selection; specified against the configured list by RateLimitConfig.RuleResolution |
| RateLimiter.ClientId | src/core/middleware/rate_limiting/redis_rate_limiter.py:35 | definition of the client identity (host address, else "unknown"); its consequence for counters is stated by RateLimiter.AnonymousClientsShareCounter |
| RateLimiter.CounterKey | src/core/middleware/rate_limiting/redis_rate_limiter.py:48 | definition of the counter key; specified by its inverse in RateLimiter.KeyRoundTrip and by RateLimiter.KeyInjective, RateLimiter.KeyInjectiveColonFreeClients, RateLimiter.SamePathDistinctClients, RateLimiter.SameClientDistinctPaths, RateLimiter.EqualLengthKeysSamePair, RateLimiter.CollisionShape and RateLimiter.KeyCollision |
| RateLimiter.KeyRoundTrip | src/core/middleware/rate_limiting/redis_rate_limiter.py:48 | for a colon-free path, path and client are recovered from the counter key by splitting at the first colon after the prefix |
| RateLimiter.KeyInjective | src/core/middleware/rate_limiting/redis_rate_limiter.py:48 | two colon-free paths give the same counter key only for the same path and the same client |
| RateLimiter.KeyInjectiveColonFreeClients | src/core/middleware/rate_limiting/redis_rate_limiter.py:35-48 | for colon-free clients (IPv4 addresses, "unknown") and any paths, equal counter keys mean the same path and the same client |
| RateLimiter.SamePathDistinctClients | src/core/middleware/rate_limiting/redis_rate_limiter.py:35-48 | two different clients on the same path always get different counter keys, for any path and clients |
| RateLimiter.SameClientDistinctPaths | src/core/middleware/rate_limiting/redis_rate_limiter.py:36-48 | one client on two different paths always gets two different counter keys, for any paths and client |
| RateLimiter.EqualLengthKeysSamePair | src/core/middleware/rate_limiting/redis_rate_limiter.py:35-48 | two (path, client) pairs whose paths have equal length share a counter key only when they are the same pair |
| RateLimiter.CollisionShape | src/core/middleware/rate_limiting/redis_rate_limiter.py:35-48 | whenever two (path, client) pairs share a counter key and the first path is longer, that path is the second path, a colon and some m, and the second client is m, a colon and the first client |
| RateLimiter.KeyCollision | src/core/middleware/rate_limiting/redis_rate_limiter.py:35-48 | path "/x:1" from client "2::3" and path "/x" from client "1:2::3" share one counter key, and so do path "/x:::ffff" from IPv4 client "1.2.3.4" and path "/x" from its IPv4-mapped form "::ffff:1.2.3.4" |
| RateLimiter.AnonymousClientsShareCounter | src/core/middleware/rate_limiting/redis_rate_limiter.py:35-48 | requests without a client address use the same counter as a client whose address is literally "unknown" |
| CounterStore.Incr | src/core/middleware/rate_limiting/redis_rate_limiter.py:50 | INCR returns the value the key read as plus one, keeps a live key's deadline, creates a missing or expired key without a deadline, and leaves every other key alone |
| CounterStore.Expire | src/core/middleware/rate_limiting/redis_rate_limiter.py:52 | EXPIRE gives a live key the deadline now plus the timeout, deletes it for a non-positive timeout, reports whether the key existed, and touches nothing else |
| CounterStore.ExpiredReadsZero | src/core/middleware/rate_limiting/redis_rate_limiter.py:50 | once a key's deadline is reached it reads as 0, so the next INCR returns 1 |
| RateLimiter.Admission | src/core/middleware/rate_limiting/redis_rate_limiter.py:39-55 | a request is rejected exactly when its counter's previous value plus one exceeds the limit in force; only its own counter changes, rejected or not, and for a positive window it goes up by one; the deadline is set to now plus the window only when the counter read as 0, and is kept otherwise; with a window of zero or less a counter that read as 0 is deleted |
| RateLimiter.Dispatch | src/core/middleware/rate_limiting/redis_rate_limiter.py:29-57 | dispatch raises status 429 with detail "Rate limit exceeded" exactly when the count would exceed the limit, and otherwise returns the handler's response for the request unchanged |
| RateLimiter.RejectionIgnoresHandler | src/core/middleware/rate_limiting/redis_rate_limiter.py:54-57 | a rejected request's outcome and store are the same for every downstream handler, so the handler plays no part in it |
| RateLimiter.StoreIgnoresHandler | src/core/middleware/rate_limiting/redis_rate_limiter.py:50-55 | the counter update happens before and regardless of the handler |
| RateLimiter.AdmissionIsLocal | src/core/middleware/rate_limiting/redis_rate_limiter.py:48-54 | stores that agree on the request's own key give the same decision and the same new slot for that key |
| RateLimiter.AdmissionKeepsCounters | src/core/middleware/rate_limiting/redis_rate_limiter.py:50-52 | every stored counter stays at least 1 across a request |
| Windows.CounterDependsOnlyOnOwnKey | src/core/middleware/rate_limiting/redis_rate_limiter.py:48-54 | after any sequence of requests, a counter's slot is what the requests on that counter alone would have produced |
| Windows.DecisionDependsOnlyOnOwnKey | src/core/middleware/rate_limiting/redis_rate_limiter.py:48-55 | a request's decision depends only on the earlier requests on its own counter, so exhausting one counter never rejects a request on another |
| Windows.OtherCountersUntouched | src/core/middleware/rate_limiting/redis_rate_limiter.py:48-50 | requests that all use other counters leave a counter's slot exactly as it was |
| Windows.FirstLimitAdmitted | src/core/middleware/rate_limiting/redis_rate_limiter.py:50-55 | inside one window opened by a request that found no live counter, the i-th request is admitted exactly when i is below the limit; the counter equals the number of requests and its deadline is the first request's time plus the window |
| Windows.ExactlyLimitPerWindow | src/core/middleware/rate_limiting/redis_rate_limiter.py:54-55 | a window receiving at least `limit` requests admits exactly `limit` of them |
| Windows.NoRenewal | src/core/middleware/rate_limiting/redis_rate_limiter.py:51-52 | before a counter's deadline, any requests leave the deadline unchanged, and the counter grows by exactly the number of requests on it |
| Windows.FreshWindowAfterExpiry | src/core/middleware/rate_limiting/redis_rate_limiter.py:50-54 | after a counter's deadline, the next request sets it to 1 with a new deadline one window later, and is admitted exactly when the limit is positive |
| Windows.WindowRestarts | src/core/middleware/rate_limiting/redis_rate_limiter.py:50-55 | after a used-up window ends, the next request on that counter is admitted and opens a new window with count 1 |
| FixedWindow.AdmissionRefinesNext | src/core/middleware/rate_limiting/redis_rate_limiter.py:50-55 | one step of the limiter on a key matches one step of the abstract fixed window, in both decision and stored state |
| FixedWindow.RunRefinesFixedWindow | src/core/middleware/rate_limiting/redis_rate_limiter.py:50-55 | over requests on one counter, the limiter's decisions equal the abstract fixed-window decisions and the stored counter is the abstract window |
| FixedWindow.InterleavedRunRefinesFixedWindow | src/core/middleware/rate_limiting/redis_rate_limiter.py:48-55 | under any interleaving with other counters, each request's decision is the abstract fixed-window decision over its own counter's history |
| Scenarios.WidgetsScenario | src/core/middleware/rate_limiting/redis_rate_limiter.py:39-57 | with defaults of 2 per 60 seconds, requests 1 and 2 pass, request 3 in the minute is rejected, and a request once the minute is over passes |
| Scenarios.ExpensivePathScenario | src/core/middleware/rate_limiting/redis_rate_limiter.py:39-57 | with an override of 1 per 10 seconds on "/expensive" and a default of 100 per 60, the second "/expensive" request is rejected while up to 50 "/cheap" requests from the same client all pass |

## Left out

- Redis connection and client construction (`src/core/middleware/rate_limiting/redis_client.py`): foreign I/O. The store is the abstract map above.
- Network failures, timeouts and the store's own errors: foreign I/O. The code has no handling for them to model.
- CounterStore.Incr: does not model the store's error when an INCR would pass the 64-bit signed maximum. A counter only reaches that after 2^63 requests in one window.
- Concurrency between INCR and EXPIRE: the model is sequential, one request per step.
- Floating-point limits and windows: the source annotates them as int or float. The model uses integers.
- How the web framework renders the raised 429 exception: the model ends at the raised exception. An `HTTPException` raised inside a `BaseHTTPMiddleware.dispatch` sits outside the framework's HTTP-exception handler, so it plausibly reaches the client as a 500 rather than a 429; framework exception handling is not part of this model.
- Handler failures: the downstream handler is a total function parameter, because its behaviour is foreign code.
- The truthiness test on the looked-up override: the model treats every override object as truthy. `PathRateLimit` is imported from `app.config` (redis_rate_limiter.py:7), which does not define it.
- Validation of positive limits and windows: the code does none. Lemmas about windows assume a positive window as a precondition.
- RateLimiter.KeyInjective: proves that different paths or clients use different counters only for colon-free paths; RateLimiter.KeyInjectiveColonFreeClients covers colon-free clients (every IPv4 address and the "unknown" sentinel) with any path. RateLimiter.SamePathDistinctClients and RateLimiter.SameClientDistinctPaths show that two pairs sharing a path or sharing a client never collide. RateLimiter.EqualLengthKeysSamePair shows that pairs whose paths have equal length never collide, and RateLimiter.CollisionShape, for paths of different lengths, shows that two distinct pairs collide only when one pair's path extends the other's with a colon and a string m, and the other pair's client is m, a colon, and the first pair's client. So one pair's path and the other pair's client both contain a colon. RateLimiter.KeyCollision exhibits two such collisions: one with an IPv6 client, and one between a plain IPv4 client and the same address in IPv4-mapped IPv6 form.
- Windows.NoRenewal: assumes the stored counter is at least 1. A live key holding 0 or less that the limiter did not write would read as 1 after INCR and have its deadline reset. RateLimiter.AdmissionKeepsCounters shows the limiter never creates such a key.
- Request logging middlewares (`src/core/middleware/logging.py`, `src/core/middleware/logging/logging.py`): timing with a wall clock and logger calls, no decision logic.
- Log-level configuration, settings, app assembly, health routes and their test: framework plumbing with no logic.

=== FILE: config.dfy ===
/** Rate-limit configuration: the per-path overrides and the default rule,
    and how the middleware's constructor and dispatch pick the rule that
    applies to a request path. */
module RateLimitConfig {
  import opened Wrappers

  /** One configured override: at most `limit` requests per `windowSeconds` on `path`. */
  datatype PathRateLimit = PathRateLimit(path: string, limit: int, windowSeconds: int)

  /** The rule in force for one request. */
  datatype Rule = Rule(limit: int, windowSeconds: int)

  /** The middleware's configuration after construction. */
  datatype Limiter = Limiter(defaultLimit: int, windowSeconds: int, pathLimits: map<string, PathRateLimit>)

  /** Reference definition: the position of the last override in `rules` whose path is `path`. */
  function LastIndexFor(rules: seq<PathRateLimit>, path: string): (r: Option<nat>)
    ensures r.None? <==> forall i :: 0 <= i < |rules| ==> rules[i].path != path
    ensures r.Some? ==> r.value < |rules| && rules[r.value].path == path
    ensures r.Some? ==> forall j :: r.value < j < |rules| ==> rules[j].path != path
    decreases |rules|
  {
    if |rules| == 0 then None
    else if rules[|rules| - 1].path == path then Some(|rules| - 1)
    else LastIndexFor(rules[..|rules| - 1], path)
  }

  /** The override map the constructor builds by walking the list in order:
      keyed by exact path, with a later override replacing an earlier one for
      the same path. */
  function Overrides(rules: seq<PathRateLimit>): (m: map<string, PathRateLimit>)
    ensures forall p :: p in m <==> LastIndexFor(rules, p).Some?
    ensures forall p :: p in m ==> m[p] == rules[LastIndexFor(rules, p).value]
    decreases |rules|
  {
    if |rules| == 0 then map[]
    else Overrides(rules[..|rules| - 1])[rules[|rules| - 1].path := rules[|rules| - 1]]
  }

  /** The constructor: keeps the defaults and indexes the overrides by path. */
  function NewLimiter(defaultLimit: int, windowSeconds: int, pathLimits: seq<PathRateLimit>): Limiter
  {
    Limiter(defaultLimit, windowSeconds, Overrides(pathLimits))
  }

  /** The rule dispatch applies to `path`: an exact-match override, else the defaults. */
  function EffectiveRule(l: Limiter, path: string): Rule
  {
    if path in l.pathLimits then Rule(l.pathLimits[path].limit, l.pathLimits[path].windowSeconds)
    else Rule(l.defaultLimit, l.windowSeconds)
  }

  /** Rule resolution stated against the configured list itself: a path no
      override names gets the defaults; a path some override names gets the
      limit and window of the LAST override naming it, and nothing from the
      defaults. */
  lemma {:induction false} RuleResolution(defaultLimit: int, windowSeconds: int, rules: seq<PathRateLimit>, path: string)
    ensures (forall i :: 0 <= i < |rules| ==> rules[i].path != path) ==>
              EffectiveRule(NewLimiter(defaultLimit, windowSeconds, rules), path) == Rule(defaultLimit, windowSeconds)
    ensures forall i :: 0 <= i < |rules| && rules[i].path == path &&
                        (forall j :: i < j < |rules| ==> rules[j].path != path) ==>
              EffectiveRule(NewLimiter(defaultLimit, windowSeconds, rules), path) == Rule(rules[i].limit, rules[i].windowSeconds)
  {
    var last := LastIndexFor(rules, path);
    if last.Some? {
      forall i | 0 <= i < |rules| && rules[i].path == path && (forall j :: i < j < |rules| ==> rules[j].path != path)
        ensures i == last.value
      {
      }
    }
  }

  /** Every configured path has an override in the map, and the override
      stored under a path is one for that path. */
  lemma OverridesCoverConfiguredPaths(rules: seq<PathRateLimit>)
    ensures Overrides(rules).Keys == set i | 0 <= i < |rules| :: rules[i].path
    ensures forall p :: p in Overrides(rules) ==> Overrides(rules)[p].path == p
  {
    var m := Overrides(rules);
    forall p | p in (set i | 0 <= i < |rules| :: rules[i].path)
      ensures p in m
    {
      var i :| 0 <= i < |rules| && rules[i].path == p;
      assert LastIndexFor(rules, p).Some?;
    }
  }
}

=== FILE: fixed_window.dfy ===
/** An abstract fixed-window counter for one key, independent of the store:
    a window opens at the first request that finds none open, stays open for
    the rule's window length, and admits the first `limit` requests it sees.
    The limiter, run over the store, refines it. */
module FixedWindow {
  import opened Wrappers
  import opened CounterStore
  import opened RateLimitConfig
  import opened RateLimiter
  import opened Windows

  /** The state of one key's window: none yet, or open since `start` having seen `seen` requests. */
  datatype Window = Closed | Open(start: int, seen: nat)

  datatype RefStep = RefStep(window: Window, decision: Decision)

  /** One request at time `at` against the abstract window. */
  function Next(w: Window, at: int, rule: Rule): (r: RefStep)
    ensures r.window.Open?
    ensures r.decision == Admit <==> r.window.seen <= rule.limit
  {
    if w.Open? && at < w.start + rule.windowSeconds then
      RefStep(Open(w.start, w.seen + 1), if w.seen + 1 <= rule.limit then Admit else Reject)
    else
      RefStep(Open(at, 1), if 1 <= rule.limit then Admit else Reject)
  }

  datatype RefTrace = RefTrace(decisions: seq<Decision>, window: Window)

  /** The abstract window driven by a sequence of request times. */
  function RefRun(rule: Rule, w: Window, times: seq<int>): (t: RefTrace)
    ensures |t.decisions| == |times|
    decreases |times|
  {
    if |times| == 0 then RefTrace([], w)
    else
      var prev := RefRun(rule, w, times[..|times| - 1]);
      var step := Next(prev.window, times[|times| - 1], rule);
      RefTrace(prev.decisions + [step.decision], step.window)
  }

  /** How an abstract window is laid out in the store under a given window length. */
  function Stored(w: Window, windowSeconds: int): Option<Entry>
  {
    match w
    case Closed => None
    case Open(start, seen) => Some(Entry(seen, Some(start + windowSeconds)))
  }

  function Times(arrivals: seq<Arrival>): (ts: seq<int>)
    ensures |ts| == |arrivals|
    ensures forall i :: 0 <= i < |arrivals| ==> ts[i] == arrivals[i].at
  {
    seq(|arrivals|, i requires 0 <= i < |arrivals| => arrivals[i].at)
  }

  /** One concrete admission step matches one abstract step on the request's key. */
  lemma AdmissionRefinesNext(l: Limiter, s: Store, w: Window, x: Arrival)
    requires EffectiveRule(l, x.path).windowSeconds > 0
    requires w.Open? ==> w.seen >= 1
    requires EntryAt(s, KeyOf(x)) == Stored(w, EffectiveRule(l, x.path).windowSeconds)
    ensures Admission(l, s, x.at, x.path, x.client).decision == Next(w, x.at, EffectiveRule(l, x.path)).decision
    ensures EntryAt(Admission(l, s, x.at, x.path, x.client).store, KeyOf(x)) ==
            Stored(Next(w, x.at, EffectiveRule(l, x.path)).window, EffectiveRule(l, x.path).windowSeconds)
  {
  }

  /** Refinement on one counter: for requests sharing a path and a client,
      the limiter's decisions are exactly the abstract fixed-window decisions
      over the request times, and the stored counter is the abstract window. */
  lemma {:induction false} RunRefinesFixedWindow(l: Limiter, s: Store, w: Window, arrivals: seq<Arrival>, path: string, client: string)
    requires SameCounter(arrivals, path, client)
    requires EffectiveRule(l, path).windowSeconds > 0
    requires w.Open? ==> w.seen >= 1
    requires EntryAt(s, CounterKey(path, client)) == Stored(w, EffectiveRule(l, path).windowSeconds)
    ensures Run(l, s, arrivals).decisions == RefRun(EffectiveRule(l, path), w, Times(arrivals)).decisions
    ensures EntryAt(Run(l, s, arrivals).store, CounterKey(path, client)) ==
            Stored(RefRun(EffectiveRule(l, path), w, Times(arrivals)).window, EffectiveRule(l, path).windowSeconds)
    ensures RefRun(EffectiveRule(l, path), w, Times(arrivals)).window.Open? ==>
            RefRun(EffectiveRule(l, path), w, Times(arrivals)).window.seen >= 1
    decreases |arrivals|
  {
    if |arrivals| > 0 {
      var init := arrivals[..|arrivals| - 1];
      var x := arrivals[|arrivals| - 1];
      assert arrivals == init + [x];
      assert Times(arrivals)[..|arrivals| - 1] == Times(init);
      RunRefinesFixedWindow(l, s, w, init, path, client);
      RunSnoc(l, s, init, x);
      AdmissionRefinesNext(l, Run(l, s, init).store, RefRun(EffectiveRule(l, path), w, Times(init)).window, x);
    }
  }

  /** The decision for one more request on a counter whose history matches the abstract window. */
  lemma NextRequestRefinesNext(l: Limiter, s: Store, own: seq<Arrival>, x: Arrival)
    requires SameCounter(own, x.path, x.client)
    requires EffectiveRule(l, x.path).windowSeconds > 0
    requires KeyOf(x) !in s
    ensures Run(l, s, own + [x]).decisions[|own|] ==
            Next(RefRun(EffectiveRule(l, x.path), Closed, Times(own)).window, x.at, EffectiveRule(l, x.path)).decision
  {
    var rule := EffectiveRule(l, x.path);
    var ideal := RefRun(rule, Closed, Times(own));
    RunRefinesFixedWindow(l, s, Closed, own, x.path, x.client);
    RunSnoc(l, s, own, x);
    AdmissionRefinesNext(l, Run(l, s, own).store, ideal.window, x);
  }

  /** Refinement under any interleaving: whatever requests on other counters
      come in between, each request's decision is the abstract fixed-window
      decision computed from the earlier requests on its own counter alone. */
  lemma InterleavedRunRefinesFixedWindow(l: Limiter, s: Store, arrivals: seq<Arrival>, x: Arrival)
    requires SameCounter(OnKey(arrivals, KeyOf(x)), x.path, x.client)
    requires EffectiveRule(l, x.path).windowSeconds > 0
    requires KeyOf(x) !in s
    ensures Run(l, s, arrivals + [x]).decisions[|arrivals|] ==
            Next(RefRun(EffectiveRule(l, x.path), Closed, Times(OnKey(arrivals, KeyOf(x)))).window,
                 x.at, EffectiveRule(l, x.path)).decision
  {
    DecisionDependsOnlyOnOwnKey(l, s, arrivals, x);
    NextRequestRefinesNext(l, s, OnKey(arrivals, KeyOf(x)), x);
  }
}

=== FILE: limiter.dfy ===
/** The per-request behaviour of the rate-limiting middleware: identify the
    client, derive the counter key, increment the counter, start the window's
    time-to-live on the first increment, and either raise "too many requests"
    or hand the request to the next handler. */
module RateLimiter {
  import opened Wrappers
  import opened CounterStore
  import opened RateLimitConfig

  /** The parts of an inbound request the middleware reads. */
  datatype Request = Request(path: string, client: Option<string>)

  /** Client identity used when the request carries no client address. */
  const UnknownClient: string := "unknown"

  /** Namespace prefix of every counter key. */
  const KeyPrefix: string := "rate_limit:"

  /** Status and detail of the exception raised for a request over the limit. */
  const TooManyRequests: int := 429
  const ExceededDetail: string := "Rate limit exceeded"

  /** The client identity: the client's host address, or the sentinel when absent. */
  function ClientId(req: Request): string
  {
    if req.client.Some? then req.client.value else UnknownClient
  }

  /** The counter key of a (path, client) pair: prefix, path, a colon, client. */
  function CounterKey(path: string, client: string): string
  {
    KeyPrefix + path + ":" + client
  }

  /** A key taken apart again. */
  datatype KeyParts = KeyParts(path: string, client: string)

  /** Position of the first colon in `s`, if any. */
  function FirstColon(s: string): (r: Option<nat>)
    ensures r.None? <==> ':' !in s
    ensures r.Some? ==> r.value < |s| && s[r.value] == ':' && ':' !in s[..r.value]
  {
    if |s| == 0 then None
    else if s[0] == ':' then Some(0)
    else match FirstColon(s[1..])
      case None => None
      case Some(i) => Some(i + 1)
  }

  /** Inverse of CounterKey for keys whose path has no colon: strip the
      prefix and split at the first colon that follows. */
  function SplitKey(key: string): (r: Option<KeyParts>)
    ensures r.Some? ==> CounterKey(r.value.path, r.value.client) == key && ':' !in r.value.path
  {
    if |key| < |KeyPrefix| || key[..|KeyPrefix|] != KeyPrefix then None
    else
      var rest := key[|KeyPrefix|..];
      match FirstColon(rest)
      case None => None
      case Some(i) =>
        assert key == KeyPrefix + rest[..i] + ":" + rest[i + 1..];
        Some(KeyParts(rest[..i], rest[i + 1..]))
  }

  lemma {:induction false} FirstColonAfterColonFreePrefix(path: string, tail: string)
    requires ':' !in path
    ensures FirstColon(path + ":" + tail) == Some(|path|)
    decreases |path|
  {
    if |path| > 0 {
      assert (path + ":" + tail)[1..] == path[1..] + ":" + tail;
      FirstColonAfterColonFreePrefix(path[1..], tail);
    }
  }

  /** Round trip: the path and client can be read back from the key
      whenever the path contains no colon. */
  lemma KeyRoundTrip(path: string, client: string)
    requires ':' !in path
    ensures SplitKey(CounterKey(path, client)) == Some(KeyParts(path, client))
  {
    var key := CounterKey(path, client);
    assert key[..|KeyPrefix|] == KeyPrefix;
    assert key[|KeyPrefix|..] == path + ":" + client;
    var rest := path + ":" + client;
    FirstColonAfterColonFreePrefix(path, client);
    assert rest[..|path|] == path;
    assert rest[|path| + 1..] == client;
  }

  /** Distinct colon-free paths or distinct clients give distinct counters. */
  lemma KeyInjective(path1: string, client1: string, path2: string, client2: string)
    requires ':' !in path1 && ':' !in path2
    requires CounterKey(path1, client1) == CounterKey(path2, client2)
    ensures path1 == path2 && client1 == client2
  {
    KeyRoundTrip(path1, client1);
    KeyRoundTrip(path2, client2);
  }

  /** Distinct colon-free clients, or distinct paths with colon-free
      clients, give distinct counters: the client is what follows the key's
      last colon. This covers every IPv4 address and the "unknown" sentinel,
      whatever the path. */
  lemma KeyInjectiveColonFreeClients(path1: string, client1: string, path2: string, client2: string)
    requires ':' !in client1 && ':' !in client2
    requires CounterKey(path1, client1) == CounterKey(path2, client2)
    ensures path1 == path2 && client1 == client2
  {
    var key := CounterKey(path1, client1);
    assert key == CounterKey(path2, client2);
    var n := |key|;
    assert key[n - |client1| - 1] == ':';
    assert key[n - |client2| - 1] == ':';
    if |client1| < |client2| {
      assert false;
    } else if |client2| < |client1| {
      assert false;
    }
    assert client1 == key[n - |client1|..] == client2;
    assert path1 == key[|KeyPrefix|..n - |client1| - 1] == path2;
  }

  /** Two requests from different clients on the same path never share a
      counter, whatever colons the path or the clients contain. */
  lemma SamePathDistinctClients(path: string, client1: string, client2: string)
    requires CounterKey(path, client1) == CounterKey(path, client2)
    ensures client1 == client2
  {
    var key := CounterKey(path, client1);
    assert client1 == key[|KeyPrefix| + |path| + 1..];
    assert client2 == CounterKey(path, client2)[|KeyPrefix| + |path| + 1..];
  }

  /** Two requests from the same client on different paths never share a
      counter, whatever colons the paths or the client contain. */
  lemma SameClientDistinctPaths(path1: string, path2: string, client: string)
    requires CounterKey(path1, client) == CounterKey(path2, client)
    ensures path1 == path2
  {
    var key := CounterKey(path1, client);
    assert |path1| == |path2|;
    assert path1 == key[|KeyPrefix|..|KeyPrefix| + |path1|];
    assert path2 == CounterKey(path2, client)[|KeyPrefix|..|KeyPrefix| + |path2|];
  }

  /** The shape of every collision: when two pairs share a key and the
      first path is the longer, that path is the second path, a colon and
      some string m, and the second client is m, a colon and the first
      client. */
  lemma CollisionShape(path1: string, client1: string, path2: string, client2: string)
    requires CounterKey(path1, client1) == CounterKey(path2, client2)
    requires |path1| > |path2|
    ensures path1 == path2 + ":" + path1[|path2| + 1..]
    ensures client2 == path1[|path2| + 1..] + ":" + client1
  {
    var key := CounterKey(path1, client1);
    var p := |KeyPrefix|;
    assert path2 == key[p..p + |path2|] == path1[..|path2|];
    assert key[p + |path2|] == ':' == path1[|path2|];
    assert path1 == path1[..|path2|] + [path1[|path2|]] + path1[|path2| + 1..];
    assert client2 == key[p + |path2| + 1..];
    assert key[p + |path2| + 1..] == path1[|path2| + 1..] + ":" + client1;
  }

  /** Keys whose paths have equal length never collide: equal keys then
      mean the same path and the same client. */
  lemma EqualLengthKeysSamePair(path1: string, client1: string, path2: string, client2: string)
    requires CounterKey(path1, client1) == CounterKey(path2, client2)
    requires |path1| == |path2|
    ensures path1 == path2 && client1 == client2
  {
    var key := CounterKey(path1, client1);
    assert path1 == key[|KeyPrefix|..|KeyPrefix| + |path1|];
    assert path2 == CounterKey(path2, client2)[|KeyPrefix|..|KeyPrefix| + |path2|];
    SamePathDistinctClients(path1, client1, client2);
  }

  /** Pairs that differ in both path and client can collide when one pair's
      path and the other pair's client both contain a colon: a path with a
      colon against an IPv6 client, and a plain IPv4 client on a path with
      colons against the same address in IPv4-mapped IPv6 form. */
  lemma KeyCollision()
    ensures CounterKey("/x:1", "2::3") == CounterKey("/x", "1:2::3")
    ensures KeyParts("/x:1", "2::3") != KeyParts("/x", "1:2::3")
    ensures CounterKey("/x:::ffff", "1.2.3.4") == CounterKey("/x", "::ffff:1.2.3.4")
    ensures KeyParts("/x:::ffff", "1.2.3.4") != KeyParts("/x", "::ffff:1.2.3.4")
  {
    assert CounterKey("/x:1", "2::3") == "rate_limit:/x:1:2::3";
    assert CounterKey("/x", "1:2::3") == "rate_limit:/x:1:2::3";
    assert CounterKey("/x:::ffff", "1.2.3.4") == "rate_limit:/x:::ffff:1.2.3.4";
    assert CounterKey("/x", "::ffff:1.2.3.4") == "rate_limit:/x:::ffff:1.2.3.4";
  }

  /** Whether the request may proceed. */
  datatype Decision = Admit | Reject

  /** The decision for one request together with the store it leaves behind. */
  datatype Step = Step(decision: Decision, store: Store)

  /** The rate-limiting part of dispatch, for a request on `path` from
      `client` at time `now`: increment the request's own counter, set its
      time-to-live only when the increment produced 1, and reject exactly
      when the incremented count exceeds the limit of the rule in force. */
  function Admission(l: Limiter, s: Store, now: int, path: string, client: string): (r: Step)
    ensures r.decision == Reject <==> Count(s, now, CounterKey(path, client)) + 1 > EffectiveRule(l, path).limit
    ensures forall k :: k != CounterKey(path, client) ==> EntryAt(r.store, k) == EntryAt(s, k)
    ensures EffectiveRule(l, path).windowSeconds > 0 ==>
              Count(r.store, now, CounterKey(path, client)) == Count(s, now, CounterKey(path, client)) + 1
    ensures Count(s, now, CounterKey(path, client)) != 0 ==>
              EntryAt(r.store, CounterKey(path, client)) ==
              Some(Entry(Count(s, now, CounterKey(path, client)) + 1, s[CounterKey(path, client)].expiry))
    ensures Count(s, now, CounterKey(path, client)) == 0 && EffectiveRule(l, path).windowSeconds > 0 ==>
              EntryAt(r.store, CounterKey(path, client)) ==
              Some(Entry(1, Some(now + EffectiveRule(l, path).windowSeconds)))
    ensures Count(s, now, CounterKey(path, client)) == 0 && EffectiveRule(l, path).windowSeconds <= 0 ==>
              !Live(r.store, now, CounterKey(path, client))
  {
    var key := CounterKey(path, client);
    var rule := EffectiveRule(l, path);
    var incr := Incr(s, now, key);
    var s' := if incr.value == 1 then Expire(incr.store, now, key, rule.windowSeconds).store else incr.store;
    Step(if incr.value > rule.limit then Reject else Admit, s')
  }

  /** What dispatch produces: the downstream handler's response, or the raised exception. */
  datatype Outcome<R> = Forwarded(response: R) | Raised(status: int, detail: string)

  datatype Dispatched<R> = Dispatched(outcome: Outcome<R>, store: Store)

  /** The middleware's dispatch for one request, with the downstream handler
      as a parameter: a rejected request raises 429 "Rate limit exceeded"; an
      admitted one returns the handler's response as it is. */
  function Dispatch<R>(l: Limiter, s: Store, now: int, req: Request, handler: Request -> R): (r: Dispatched<R>)
    ensures r.outcome.Raised? <==>
              Count(s, now, CounterKey(req.path, ClientId(req))) + 1 > EffectiveRule(l, req.path).limit
    ensures r.outcome.Raised? ==> r.outcome == Raised(TooManyRequests, ExceededDetail)
    ensures r.outcome.Forwarded? ==> r.outcome.response == handler(req)
    ensures r.store == Admission(l, s, now, req.path, ClientId(req)).store
  {
    var step := Admission(l, s, now, req.path, ClientId(req));
    var outcome := if step.decision == Reject then Raised(TooManyRequests, ExceededDetail) else Forwarded(handler(req));
    Dispatched(outcome, step.store)
  }

  /** A rejected request never reaches the handler: the outcome and the
      store are the same whichever handler sits downstream. */
  lemma RejectionIgnoresHandler<R>(l: Limiter, s: Store, now: int, req: Request, h1: Request -> R, h2: Request -> R)
    requires Dispatch(l, s, now, req, h1).outcome.Raised?
    ensures Dispatch(l, s, now, req, h1) == Dispatch(l, s, now, req, h2)
  {
  }

  /** The store never depends on the handler: the counter is incremented
      before the decision, for admitted and rejected requests alike. */
  lemma StoreIgnoresHandler<R>(l: Limiter, s: Store, now: int, req: Request, h1: Request -> R, h2: Request -> R)
    ensures Dispatch(l, s, now, req, h1).store == Dispatch(l, s, now, req, h2).store
  {
  }

  /** Requests without a client address all share the counter of the
      literal client "unknown". */
  lemma AnonymousClientsShareCounter(path: string)
    ensures CounterKey(path, ClientId(Request(path, None))) == CounterKey(path, ClientId(Request(path, Some(UnknownClient))))
  {
  }

  /** The admission step only looks at the request's own counter: two stores
      that agree on that key give the same decision and the same new slot. */
  lemma AdmissionIsLocal(l: Limiter, s1: Store, s2: Store, now: int, path: string, client: string)
    requires EntryAt(s1, CounterKey(path, client)) == EntryAt(s2, CounterKey(path, client))
    ensures Admission(l, s1, now, path, client).decision == Admission(l, s2, now, path, client).decision
    ensures EntryAt(Admission(l, s1, now, path, client).store, CounterKey(path, client))
         == EntryAt(Admission(l, s2, now, path, client).store, CounterKey(path, client))
  {
    var key := CounterKey(path, client);
    assert Live(s1, now, key) == Live(s2, now, key);
  }

  /** Every stored counter stays at least 1 across a request. */
  lemma AdmissionKeepsCounters(l: Limiter, s: Store, now: int, path: string, client: string)
    requires Counters(s)
    ensures Counters(Admission(l, s, now, path, client).store)
  {
  }
}

=== FILE: scenarios.dfy ===
/** Two concrete configurations, worked through with the general lemmas. */
module Scenarios {
  import opened CounterStore
  import opened RateLimitConfig
  import opened RateLimiter
  import opened Windows

  /** Defaults of 2 requests per 60 seconds and no overrides: the first two
      requests from one client to "/widgets" pass, the third inside the
      minute is rejected, and a fourth once the minute is over passes again
      and opens a new window. */
  lemma WidgetsScenario()
    ensures var l := NewLimiter(2, 60, []);
            var burst := [Arrival(0, "/widgets", "1.2.3.4"), Arrival(10, "/widgets", "1.2.3.4"), Arrival(20, "/widgets", "1.2.3.4")];
            var later := Arrival(60, "/widgets", "1.2.3.4");
            && Run(l, map[], burst).decisions == [Admit, Admit, Reject]
            && Run(l, map[], burst + [later]).decisions == [Admit, Admit, Reject, Admit]
  {
    var l := NewLimiter(2, 60, []);
    var burst := [Arrival(0, "/widgets", "1.2.3.4"), Arrival(10, "/widgets", "1.2.3.4"), Arrival(20, "/widgets", "1.2.3.4")];
    var later := Arrival(60, "/widgets", "1.2.3.4");
    assert EffectiveRule(l, "/widgets") == Rule(2, 60);
    assert SameCounter(burst + [later], "/widgets", "1.2.3.4");
    FirstLimitAdmitted(l, map[], burst, "/widgets", "1.2.3.4");
    WindowRestarts(l, map[], burst, later);
    RunSnoc(l, map[], burst, later);
  }

  /** An override of 1 request per 10 seconds on "/expensive" beside a
      default of 100 per 60: a second request to "/expensive" inside its
      window is rejected, and the earlier "/expensive" requests leave the
      client's "/cheap" counter untouched, so a burst of up to 50 "/cheap"
      requests, one per second after the "/expensive" ones, is admitted in full. */
  lemma {:induction false} ExpensivePathScenario(cheap: seq<Arrival>)
    requires 0 < |cheap| <= 50
    requires forall i :: 0 <= i < |cheap| ==> cheap[i] == Arrival(6 + i, "/cheap", "1.2.3.4")
    ensures var l := NewLimiter(100, 60, [PathRateLimit("/expensive", 1, 10)]);
            var pricey := [Arrival(0, "/expensive", "1.2.3.4"), Arrival(5, "/expensive", "1.2.3.4")];
            && Run(l, map[], pricey).decisions == [Admit, Reject]
            && forall i :: 0 <= i < |cheap| ==> Run(l, Run(l, map[], pricey).store, cheap).decisions[i] == Admit
  {
    var l := NewLimiter(100, 60, [PathRateLimit("/expensive", 1, 10)]);
    var pricey := [Arrival(0, "/expensive", "1.2.3.4"), Arrival(5, "/expensive", "1.2.3.4")];
    var cheapKey := CounterKey("/cheap", "1.2.3.4");
    assert [PathRateLimit("/expensive", 1, 10)][..0] == [];
    assert EffectiveRule(l, "/expensive") == Rule(1, 10);
    assert EffectiveRule(l, "/cheap") == Rule(100, 60);
    assert SameCounter(pricey, "/expensive", "1.2.3.4");
    FirstLimitAdmitted(l, map[], pricey, "/expensive", "1.2.3.4");
    assert KeyOf(pricey[0]) != cheapKey && KeyOf(pricey[1]) != cheapKey by {
      // The two keys first differ at the character after the path's leading slash.
      assert CounterKey("/expensive", "1.2.3.4")[|KeyPrefix| + 1] != cheapKey[|KeyPrefix| + 1];
    }
    OtherCountersUntouched(l, map[], pricey, cheapKey);
    var s := Run(l, map[], pricey).store;
    assert !Live(s, 0, cheapKey);
    assert SameCounter(cheap, "/cheap", "1.2.3.4");
    FirstLimitAdmitted(l, s, cheap, "/cheap", "1.2.3.4");
  }
}

=== FILE: store.dfy ===
/** The external counting store the rate limiter talks to (a Redis server in
    the service), reduced to the two commands the limiter issues: INCR and
    EXPIRE. Time is an abstract integer clock counted in seconds. Expiry is
    lazy: a key whose deadline has passed may still sit in the map, but every
    command reads it as absent, exactly as a client of the store observes it. */
module CounterStore {
  import opened Wrappers

  /** A stored counter with its absolute deadline, if a time-to-live was set. */
  datatype Entry = Entry(count: int, expiry: Option<int>)

  type Store = map<string, Entry>

  /** A key is live at `now` when it is stored and its deadline lies in the future. */
  predicate Live(s: Store, now: int, key: string)
  {
    key in s && (s[key].expiry.None? || now < s[key].expiry.value)
  }

  /** The value a client reads for `key` at `now`: an absent or expired key reads as 0. */
  function Count(s: Store, now: int, key: string): int
  {
    if Live(s, now, key) then s[key].count else 0
  }

  /** The raw slot of `key`, live or not; used to say that a command left a key alone. */
  function EntryAt(s: Store, key: string): Option<Entry>
  {
    if key in s then Some(s[key]) else None
  }

  /** Every stored counter holds at least 1, which is what INCR-created counters do. */
  predicate Counters(s: Store)
  {
    forall k :: k in s ==> s[k].count >= 1
  }

  datatype IncrResult = IncrResult(store: Store, value: int)

  /** INCR: adds one to the value the key reads as and returns the new value.
      A live key keeps its time-to-live; an absent or expired key is created
      afresh without one. No other key is touched. */
  function Incr(s: Store, now: int, key: string): (r: IncrResult)
    ensures r.value == Count(s, now, key) + 1
    ensures Live(r.store, now, key) && Count(r.store, now, key) == r.value
    ensures Live(s, now, key) ==> r.store[key].expiry == s[key].expiry
    ensures !Live(s, now, key) ==> r.store[key].expiry == None
    ensures forall k :: k != key ==> EntryAt(r.store, k) == EntryAt(s, k)
  {
    if Live(s, now, key) then
      IncrResult(s[key := Entry(s[key].count + 1, s[key].expiry)], s[key].count + 1)
    else
      IncrResult(s[key := Entry(1, None)], 1)
  }

  datatype ExpireResult = ExpireResult(store: Store, applied: bool)

  /** EXPIRE: gives a live key a deadline `seconds` from now and reports
      whether the key existed. A non-positive timeout deletes the key at once,
      as the store does for EXPIRE with a timeout of zero or less. */
  function Expire(s: Store, now: int, key: string, seconds: int): (r: ExpireResult)
    ensures r.applied <==> Live(s, now, key)
    ensures !Live(s, now, key) ==> r.store == s
    ensures Live(s, now, key) && seconds > 0 ==>
              key in r.store && r.store[key] == Entry(s[key].count, Some(now + seconds))
    ensures Live(s, now, key) && seconds <= 0 ==> !Live(r.store, now, key)
    ensures forall k :: k != key ==> EntryAt(r.store, k) == EntryAt(s, k)
  {
    if !Live(s, now, key) then ExpireResult(s, false)
    else if seconds <= 0 then ExpireResult(s - {key}, true)
    else ExpireResult(s[key := Entry(s[key].count, Some(now + seconds))], true)
  }

  /** A key whose deadline has been reached reads as 0 from then on, whatever
      its stored count: the window is over. */
  lemma ExpiredReadsZero(s: Store, key: string, deadline: int, later: int)
    requires key in s && s[key].expiry == Some(deadline)
    requires deadline <= later
    ensures Count(s, later, key) == 0
    ensures Incr(s, later, key).value == 1
  {
  }
}

=== FILE: windows.dfy ===
/** Sequences of requests through the rate limiter, one request per step on
    an abstract clock, and the fixed-window behaviour they exhibit. */
module Windows {
  import opened Wrappers
  import opened CounterStore
  import opened RateLimitConfig
  import opened RateLimiter

  /** A request reaching the limiter at time `at`, from a resolved client identity. */
  datatype Arrival = Arrival(at: int, path: string, client: string)

  function KeyOf(a: Arrival): string
  {
    CounterKey(a.path, a.client)
  }

  /** The decisions taken for a sequence of arrivals, and the final store. */
  datatype Trace = Trace(decisions: seq<Decision>, store: Store)

  /** Feeds the arrivals to the limiter in order, starting from store `s`. */
  function Run(l: Limiter, s: Store, arrivals: seq<Arrival>): (t: Trace)
    ensures |t.decisions| == |arrivals|
    decreases |arrivals|
  {
    if |arrivals| == 0 then Trace([], s)
    else
      var prev := Run(l, s, arrivals[..|arrivals| - 1]);
      var last := arrivals[|arrivals| - 1];
      var step := Admission(l, prev.store, last.at, last.path, last.client);
      Trace(prev.decisions + [step.decision], step.store)
  }

  /** Running one more arrival extends the trace by that arrival's decision. */
  lemma RunSnoc(l: Limiter, s: Store, arrivals: seq<Arrival>, x: Arrival)
    ensures Run(l, s, arrivals + [x]).decisions ==
            Run(l, s, arrivals).decisions + [Admission(l, Run(l, s, arrivals).store, x.at, x.path, x.client).decision]
    ensures Run(l, s, arrivals + [x]).store ==
            Admission(l, Run(l, s, arrivals).store, x.at, x.path, x.client).store
  {
    assert (arrivals + [x])[..|arrivals|] == arrivals;
  }

  /** The arrivals that touch counter `key`, in order. */
  function OnKey(arrivals: seq<Arrival>, key: string): (f: seq<Arrival>)
    ensures |f| <= |arrivals|
    ensures forall i :: 0 <= i < |f| ==> KeyOf(f[i]) == key
    decreases |arrivals|
  {
    if |arrivals| == 0 then []
    else
      var init := OnKey(arrivals[..|arrivals| - 1], key);
      if KeyOf(arrivals[|arrivals| - 1]) == key then init + [arrivals[|arrivals| - 1]] else init
  }

  /** Counter independence: the slot of `key` after any run is the slot it
      would have had if only the arrivals on `key` had happened. Requests on
      other counters, admitted or rejected, never affect it. */
  lemma {:induction false} CounterDependsOnlyOnOwnKey(l: Limiter, s: Store, arrivals: seq<Arrival>, key: string)
    ensures EntryAt(Run(l, s, arrivals).store, key) == EntryAt(Run(l, s, OnKey(arrivals, key)).store, key)
    decreases |arrivals|
  {
    if |arrivals| > 0 {
      var init := arrivals[..|arrivals| - 1];
      var x := arrivals[|arrivals| - 1];
      assert arrivals == init + [x];
      CounterDependsOnlyOnOwnKey(l, s, init, key);
      RunSnoc(l, s, init, x);
      if KeyOf(x) == key {
        RunSnoc(l, s, OnKey(init, key), x);
        AdmissionIsLocal(l, Run(l, s, init).store, Run(l, s, OnKey(init, key)).store, x.at, x.path, x.client);
      }
    }
  }

  /** The decision for a request depends only on the earlier requests on the
      same counter: exhausting one counter never rejects a request on another. */
  lemma DecisionDependsOnlyOnOwnKey(l: Limiter, s: Store, arrivals: seq<Arrival>, x: Arrival)
    ensures Run(l, s, arrivals + [x]).decisions[|arrivals|] ==
            Run(l, s, OnKey(arrivals, KeyOf(x)) + [x]).decisions[|OnKey(arrivals, KeyOf(x))|]
  {
    var own := OnKey(arrivals, KeyOf(x));
    RunSnoc(l, s, arrivals, x);
    RunSnoc(l, s, own, x);
    CounterDependsOnlyOnOwnKey(l, s, arrivals, KeyOf(x));
    AdmissionIsLocal(l, Run(l, s, arrivals).store, Run(l, s, own).store, x.at, x.path, x.client);
  }

  /** Requests that all use other counters leave `key`'s slot exactly as it was. */
  lemma OtherCountersUntouched(l: Limiter, s: Store, arrivals: seq<Arrival>, key: string)
    requires forall i :: 0 <= i < |arrivals| ==> KeyOf(arrivals[i]) != key
    ensures EntryAt(Run(l, s, arrivals).store, key) == EntryAt(s, key)
  {
    OnKeyEmpty(arrivals, key);
    CounterDependsOnlyOnOwnKey(l, s, arrivals, key);
  }

  lemma {:induction false} OnKeyEmpty(arrivals: seq<Arrival>, key: string)
    requires forall i :: 0 <= i < |arrivals| ==> KeyOf(arrivals[i]) != key
    ensures OnKey(arrivals, key) == []
    decreases |arrivals|
  {
    if |arrivals| > 0 {
      OnKeyEmpty(arrivals[..|arrivals| - 1], key);
    }
  }

  /** Arrivals that share one path and one client, hence one counter and one rule. */
  ghost predicate SameCounter(arrivals: seq<Arrival>, path: string, client: string)
  {
    forall i :: 0 <= i < |arrivals| ==> arrivals[i].path == path && arrivals[i].client == client
  }

  /** Arrivals that all fall before `deadline`. */
  ghost predicate Before(arrivals: seq<Arrival>, deadline: int)
  {
    forall i :: 0 <= i < |arrivals| ==> arrivals[i].at < deadline
  }

  /** Exactly `limit` admissions per window: when the first request finds no
      live counter and every request falls inside the window it opens, the
      i-th request (from 0) is admitted exactly when i < limit, the counter
      holds the number of requests, and its deadline is the first request's
      time plus the window, never moved by the later requests. */
  lemma {:induction false} FirstLimitAdmitted(l: Limiter, s: Store, arrivals: seq<Arrival>, path: string, client: string)
    requires |arrivals| > 0
    requires SameCounter(arrivals, path, client)
    requires EffectiveRule(l, path).windowSeconds > 0
    requires !Live(s, arrivals[0].at, CounterKey(path, client))
    requires Before(arrivals, arrivals[0].at + EffectiveRule(l, path).windowSeconds)
    ensures forall i :: 0 <= i < |arrivals| ==>
              (Run(l, s, arrivals).decisions[i] == Admit <==> i < EffectiveRule(l, path).limit)
    ensures EntryAt(Run(l, s, arrivals).store, CounterKey(path, client)) ==
            Some(Entry(|arrivals|, Some(arrivals[0].at + EffectiveRule(l, path).windowSeconds)))
    decreases |arrivals|
  {
    var n := |arrivals|;
    var init := arrivals[..n - 1];
    var x := arrivals[n - 1];
    assert arrivals == init + [x];
    RunSnoc(l, s, init, x);
    if n > 1 {
      assert init[0] == arrivals[0];
      FirstLimitAdmitted(l, s, init, path, client);
    }
  }

  /** Number of admissions in a list of decisions. */
  function Admitted(ds: seq<Decision>): (n: nat)
    ensures n <= |ds|
    decreases |ds|
  {
    if |ds| == 0 then 0
    else Admitted(ds[..|ds| - 1]) + (if ds[|ds| - 1] == Admit then 1 else 0)
  }

  lemma {:induction false} AdmittedPrefix(ds: seq<Decision>, limit: nat)
    requires limit <= |ds|
    requires forall i :: 0 <= i < |ds| ==> (ds[i] == Admit <==> i < limit)
    ensures Admitted(ds) == limit
    decreases |ds|
  {
    if |ds| > limit {
      AdmittedPrefix(ds[..|ds| - 1], limit);
    } else if |ds| > 0 {
      AdmittedAll(ds);
    }
  }

  lemma {:induction false} AdmittedAll(ds: seq<Decision>)
    requires forall i :: 0 <= i < |ds| ==> ds[i] == Admit
    ensures Admitted(ds) == |ds|
    decreases |ds|
  {
    if |ds| > 0 {
      AdmittedAll(ds[..|ds| - 1]);
    }
  }

  /** A full window admits exactly `limit` requests: with at least `limit`
      requests inside one window on one counter, exactly `limit` get through. */
  lemma ExactlyLimitPerWindow(l: Limiter, s: Store, arrivals: seq<Arrival>, path: string, client: string)
    requires |arrivals| > 0
    requires SameCounter(arrivals, path, client)
    requires EffectiveRule(l, path).windowSeconds > 0
    requires 0 <= EffectiveRule(l, path).limit <= |arrivals|
    requires !Live(s, arrivals[0].at, CounterKey(path, client))
    requires Before(arrivals, arrivals[0].at + EffectiveRule(l, path).windowSeconds)
    ensures Admitted(Run(l, s, arrivals).decisions) == EffectiveRule(l, path).limit
  {
    FirstLimitAdmitted(l, s, arrivals, path, client);
    AdmittedPrefix(Run(l, s, arrivals).decisions, EffectiveRule(l, path).limit);
  }

  /** No renewal: while the clock stays before a counter's deadline, any
      requests whatsoever leave that deadline where it is, and the counter
      grows by exactly the number of requests made on it. */
  lemma {:induction false} NoRenewal(l: Limiter, s: Store, arrivals: seq<Arrival>, key: string, deadline: int)
    requires key in s && s[key].count >= 1 && s[key].expiry == Some(deadline)
    requires Before(arrivals, deadline)
    ensures EntryAt(Run(l, s, arrivals).store, key) ==
            Some(Entry(s[key].count + |OnKey(arrivals, key)|, Some(deadline)))
    decreases |arrivals|
  {
    if |arrivals| > 0 {
      var init := arrivals[..|arrivals| - 1];
      var x := arrivals[|arrivals| - 1];
      assert arrivals == init + [x];
      NoRenewal(l, s, init, key, deadline);
      RunSnoc(l, s, init, x);
    }
  }

  /** A fresh window after expiry: once the counter's deadline has passed,
      the next request reads a count of 1, opens a new window ending one
      window length later, and is admitted whenever the limit is positive. */
  lemma FreshWindowAfterExpiry(l: Limiter, s: Store, now: int, path: string, client: string, deadline: int)
    requires CounterKey(path, client) in s && s[CounterKey(path, client)].expiry == Some(deadline)
    requires deadline <= now
    requires EffectiveRule(l, path).windowSeconds > 0
    ensures EntryAt(Admission(l, s, now, path, client).store, CounterKey(path, client)) ==
            Some(Entry(1, Some(now + EffectiveRule(l, path).windowSeconds)))
    ensures Admission(l, s, now, path, client).decision == Admit <==> EffectiveRule(l, path).limit >= 1
  {
    ExpiredReadsZero(s, CounterKey(path, client), deadline, now);
  }

  /** The window restarts: after a window has been used up, the first
      request at or after its end is admitted (for a positive limit) and
      opens a new window with a count of 1. */
  lemma WindowRestarts(l: Limiter, s: Store, arrivals: seq<Arrival>, x: Arrival)
    requires |arrivals| > 0
    requires SameCounter(arrivals + [x], x.path, x.client)
    requires EffectiveRule(l, x.path).windowSeconds > 0
    requires EffectiveRule(l, x.path).limit >= 1
    requires !Live(s, arrivals[0].at, KeyOf(x))
    requires Before(arrivals, arrivals[0].at + EffectiveRule(l, x.path).windowSeconds)
    requires arrivals[0].at + EffectiveRule(l, x.path).windowSeconds <= x.at
    ensures Run(l, s, arrivals + [x]).decisions[|arrivals|] == Admit
    ensures EntryAt(Run(l, s, arrivals + [x]).store, KeyOf(x)) ==
            Some(Entry(1, Some(x.at + EffectiveRule(l, x.path).windowSeconds)))
  {
    assert SameCounter(arrivals, x.path, x.client) by {
      forall i | 0 <= i < |arrivals| ensures arrivals[i] == (arrivals + [x])[i] { }
    }
    FirstLimitAdmitted(l, s, arrivals, x.path, x.client);
    RunSnoc(l, s, arrivals, x);
    FreshWindowAfterExpiry(l, Run(l, s, arrivals).store, x.at, x.path, x.client,
                           arrivals[0].at + EffectiveRule(l, x.path).windowSeconds);
  }
}

=== FILE: wrappers.dfy ===
/** The optional-value datatype shared by the rate limiter modules. */
module Wrappers {

  /** A value that may be missing: an absent client address, a key with no
      time-to-live, an override that does not exist. */
  datatype Option<+T> = None | Some(value: T)
}
